=== FILE: README.md ===
# Order-desk bot state model

A Dafny model of the state-keeping core of a chat-platform bot that runs an
order desk: numbered order tickets with a claim toggle, a ledger of staff
infractions, a promotion ladder with a promotion log, an order-contract
registry guarded by the customer, and the tier choice of the tax calculator.

Every command is a pure function from (state, inputs) to (new state, outcome):

- `Tickets`: the `data.json` document (`ticketCounter`, `claims`) is passed in
  as `Option<Store>` (`None` while the file does not exist). `next_ticket` and
  `claimticket` load it (falling back to counter 0 and no claims), change it
  and save it back, so a restart between commands is just another load.
- `Infractions`: the ledger rows and the in-memory counter `icount`, set at
  start-up from the largest `InfractionID` on file (0 when the file is missing
  or empty); `/infraction` is refused without the permission role, else bumps
  the counter and appends one row carrying the new id and the kind's display text.
  Sessions here run each command to completion before the next one starts;
  overlapping commands are `InfractionTasks`.
- `Promotions`: `ROLE_IDS` (most junior rank first), the first-held-rank search,
  the one-step promotion and the per-member log in `promotions.json`. How the
  two awaited role calls went is an input (`RoleCalls`); the log is written
  only when both went through.
- `Contracts`: ids `len(contracts) + 1` in a map that never shrinks; Accept and
  Reject are refused for anyone but the recorded customer. A decision adds a
  Status line and then edits the message to remove the buttons; whether that
  edit went through is an input (`edited`), and only then is the decision final.
- `Tax`: the 5 / 10 / 25 percent tier by number of designs, with fewer than one
  design rejected.
- `Decimal` and `Entities`: Python's `str(n)` and `f"{n:04d}"` on non-negative
  integers, with `Value` (reading the digits back) as their partner; platform
  ids are opaque naturals and a member is its id, mention text and role ids.

Discord ids, mentions, message ids and timestamps are inputs. Whether posting
the infraction embed succeeded is an input too (`posted: Option<MessageId>`).

`InfractionTasks` splits `/infraction` at the `await` of the embed post, so
that commands overlapping there can be interleaved in any order. It holds
both the code as written and a corrected version; see "## Findings".

## Model

| member | source | states |
|---|---|---|
| `Tickets.LoadData` | bot.py:62-67 | a missing store reads as counter 0 with no claims; an existing one is returned as saved |
| `Tickets.SaveData` | bot.py:69-71 | loading after a save yields exactly the saved document |
| `Tickets.NextTicket` | bot.py:73-77 | the counter rises by exactly one and claims are untouched; the label is the `%04d` rendering of the new counter: all digits, at least 4 characters, no leading zero once longer than 4, and its value is the new counter |
| `Tickets.NextTickets` | bot.py:73-77 | k ticket creations hand out the renderings of c + 1, ..., c + k in order (c the counter before), raise the counter by k and leave claims alone |
| `Tickets.TicketLabelsIncrease` | bot.py:73-77 | label i of a run reads back as c + i + 1, so labels strictly increase as numbers and never repeat |
| `Tickets.RestartContinuesNumbering` | bot.py:62-77 | a restart after a tickets followed by b more gives the same labels and final store as an uninterrupted run of a + b |
| `Tickets.FirstTicketsFromFreshStore` | bot.py:62-77 | with no store yet the first two tickets are "0001" and "0002" |
| `Tickets.ClaimTicket` | bot.py:200-215 | a claimed channel becomes unclaimed whoever calls; an unclaimed one becomes claimed by the caller; the counter and every other key keep their values |
| `Tickets.ClaimTicketIsLocal` | bot.py:203-211 | in terms of channel ids, only the toggled channel's claimant changes |
| `Tickets.ToggleTwiceRestores` | bot.py:204-211 | claiming an unclaimed channel and toggling it again, by anyone, restores the store exactly |
| `Decimal.ToDecimal` | bot.py:203 | `str(n)` is a non-empty digit string without leading zeros whose value is n |
| `Decimal.Format04` | bot.py:77 | `%04d` is a digit string of at least 4 characters whose value is n, with no leading zero once longer than 4 |
| `Decimal.PadLeftShape` | bot.py:77 | padding only prepends '0's and leaves the digits of `str(n)` intact at the end |
| `Decimal.PadLeft` | bot.py:77 | the padded label is as long as `str(n)`, or four characters when `str(n)` is shorter; with `Decimal.PadLeftShape` this fixes the label |
| `Decimal.FirstLabels` | bot.py:77 | counters 1 and 2 render as "0001" and "0002" |
| `Decimal.Format04Injective` | bot.py:77 | distinct numbers never share a `%04d` label |
| `Entities.IdKey` | bot.py:279 | `str(id)` keys read back to the id, so distinct ids give distinct keys |
| `Infractions.FromDisplay` | bot.py:105-116 | looking a kind up by its text returns a kind with that text, or none when no kind has it |
| `Infractions.DisplayInjective` | bot.py:105-116 | the eleven kinds have eleven distinct display texts |
| `Infractions.MaxId` | bot.py:92 | the maximum id of non-empty rows bounds every id and is one of them |
| `Infractions.InitLedger` | bot.py:89-100 | the loaded rows are the file's rows (none when missing); the counter is at or above every id, equals one of them when there are rows, and is 0 when there are none |
| `Infractions.SaveLedger` | bot.py:102-103 | reloading the saved file yields the same rows |
| `Infractions.Issue` | bot.py:250-261 | without the permission role nothing changes; with it the counter rises by one and, once posted, exactly one row is appended with the new id, the kind's text, the target's id and mention, the issuer's id and mention, the reason, the posted message id and empty notes, earlier rows unchanged |
| `Infractions.IssuePreservesCover` | bot.py:255 | the id handed out exceeds every id already in the ledger |
| `Infractions.SessionIdsIncrease` | bot.py:251-261 | in a session where each command finishes before the next starts, appended rows have strictly increasing ids, each above all rows before them |
| `Infractions.StartUpSessionIdsIncrease` | bot.py:251-261 | from start-up, such a one-at-a-time session appends rows whose ids strictly increase and exceed every id on file (overlapping commands: as written `InfractionTasks.OverlapSharesAnId`; corrected `InfractionTasks.InterleavedIdsStayUnique`) |
| `Infractions.DenseLedgerContinuesIds` | bot.py:255-260 | N permitted and posted infractions run one at a time against a ledger with ids 1..n get ids n+1..n+N in order |
| `Infractions.FreshStartIdsAreOneToN` | bot.py:255-260 | with no ledger file, N permitted and posted infractions run one at a time get ids 1..N in order |
| `Infractions.ReloadRecoversCounter` | bot.py:89-94 | reloading a saved ledger whose last row holds the counter restores both rows and counter |
| `InfractionTasks.Start` | bot.py:252-256 | without the permission role nothing changes; otherwise the rows are kept, the counter rises by one, and the command joins the end of the suspended list holding the new counter as its embed's id, earlier suspended commands kept in order |
| `InfractionTasks.ResumeAsWritten` | bot.py:258-260 | as written: the resumed command leaves the suspended list (the others keep their order) and the counter is unchanged; a failed post adds no row; a successful one keeps the earlier rows and appends exactly one, recording the command's request and message id under the shared counter's value at that moment |
| `InfractionTasks.ResumeTask` | bot.py:256-260 | corrected: the same, except that the appended row carries the id the command's own embed announced |
| `InfractionTasks.OverlapSharesAnId` | bot.py:255-260 | as written, two permitted commands whose posts overlap both record the second id and the first id never reaches the ledger |
| `InfractionTasks.OverlapKeepsOwnIds` | bot.py:255-260 | with the corrected resume the same schedule records the two ids in order |
| `InfractionTasks.SequentialMatchesIssue` | bot.py:250-261 | without overlap, as written and corrected both equal the one-step `Issue` |
| `InfractionTasks.RunKeepsUnique` | bot.py:250-261 | under the corrected resume, any schedule keeps appended and pending ids pairwise distinct and above every earlier id |
| `InfractionTasks.InterleavedIdsStayUnique` | bot.py:250-261 | corrected: from start-up, whatever the interleaving, no two rows of a session share an id and each new id exceeds every id on file (as written this fails: `InfractionTasks.OverlapSharesAnId`) |
| `Promotions.LoadPromotions` | bot.py:79-83 | a missing log reads as empty; an existing one is returned as saved |
| `Promotions.SavePromotions` | bot.py:85-87 | loading after a save yields exactly the saved log |
| `Promotions.RoleIdsDistinct` | bot.py:37-53 | no rank appears twice in `ROLE_IDS` |
| `Promotions.FirstHeld` | bot.py:272 | the result is the lowest ladder index the member holds, or none when they hold no rank |
| `Promotions.FirstHeldIs` | bot.py:272 | a held index with no held rank below it is the one the search finds |
| `Promotions.PromotionIssue` | bot.py:269-280 | refused, with nothing changed, when no rank is held or the first held rank is the top; otherwise, if removing the old rank fails nothing changes, if adding the new one fails the old rank is gone and no record is written, and if both succeed the rank is swapped for the next one and the member's record is overwritten with the two ranks, issuer, reason and time, other records kept |
| `Promotions.FailedAddDropsRank` | bot.py:276-279 | when adding the new rank fails the member holds neither the rank they were promoted from nor any rank below it, and the log is not written |
| `Promotions.PromotionAdvancesOneRank` | bot.py:272-278 | on a ladder without repeats the member's first held rank afterwards is one step higher |
| `Promotions.TopRankIsRefused` | bot.py:273-274 | a member whose only rank is the top one cannot be promoted and nothing is written |
| `Promotions.SecondPromotionOverwrites` | bot.py:279 | after two promotions of one member only the second record is visible |
| `Contracts.CreateContract` | bot.py:166-167 | the new id is the count plus one, it holds the new contract, and no existing id disappears |
| `Contracts.CreateKeepsIdsDense` | bot.py:166-167 | with ids 1..n in use the new id is unused and the ids become 1..n+1 |
| `Contracts.CreateAllIdsDense` | bot.py:166-167 | any series of contracts keeps the ids dense and adds one entry each |
| `Contracts.NContractsHaveIdsOneToN` | bot.py:166-167 | after n contracts from an empty registry the ids are exactly 1..n |
| `Contracts.Respond` | bot.py:134-153 | an unknown id, a message whose buttons are gone or an actor other than the customer changes nothing; the customer's press adds exactly one Status line with the decision after the earlier ones, keeps customer, terms, ids and every other contract, and leaves the buttons on exactly when the message edit failed |
| `Contracts.DecisionIsFinal` | bot.py:141-152 | when the message edit goes through, the customer's first decision is the contract's only Status line and no later press by anyone changes the registry |
| `Contracts.FailedEditAllowsSecondDecision` | bot.py:139-152 | when the edit after the first decision fails, the buttons stay and the customer's second press is recorded as a second Status line |
| `Contracts.SuccessfulEditsKeepOneDecision` | bot.py:139-152 | while every edit goes through, each contract shows no Status line with the buttons on and exactly one once they are gone |
| `Contracts.OnlyCustomerChangesRegistry` | bot.py:136-148 | any change to the registry comes from the contract's customer, and no press removes a contract |
| `Tax.TaxTier` | bot.py:319-321 | fewer than one design is rejected; otherwise 5% below 10 designs, 10% below 25, 25% from 25 on |
| `Tax.TierMonotone` | bot.py:321 | more designs never give a lower rate |
| `Tax.TierChangesOnlyAtThresholds` | bot.py:321 | the rate changes exactly when the count reaches 10 and when it reaches 25 |

## Left out

- All calls to the chat platform: channel creation, deletion and renaming (the red/green emoji swap), permission overwrites, embeds, modals, role lookups, the ticket panel, `on_ready` and `bot.run`. They have no state the core keeps.
- File I/O, JSON and CSV formats: each file is an abstract persisted value, and saving then loading returns it unchanged. A corrupt or unreadable file is not modelled.
- Concurrency of `/promotion issue`: it awaits the role changes between loading and saving the log, so two overlapping promotions can lose one record. Each promotion is modelled as one step.
- Concurrency of the contract buttons: a second press that arrives while the first press's message edit is still pending would add a second Status line. Each press is modelled as one step; a failed edit, which has the same effect, is modelled (`edited`).
- Infraction ids across a restart: the counter is recomputed from the rows on file, so an id skipped because the session's last post failed is handed out again after the restart. No row ever carried that id.
- Claims are a plain toggle: whoever runs `/claimticket` on a claimed ticket releases it, whoever claimed it. There are no infraction void or list commands and no promotion view or void command in the code, so none is modelled.
- The tax amounts `int(amount / 0.7)` and `int(tax * preset)`: floating point; only the tier choice is modelled.
- Timestamps and message ids are opaque inputs. A missing permission role, or a missing rank role in the search for the member's current rank, is treated as a role id the member does not hold. A missing next rank role makes adding it fail, which is the `AddFailed` case of `RoleCalls`.
- The review, payment, close-request, close-ticket and user-add commands: they keep no state.
- `Tickets.NextTicket`: the counter is a natural number. A hand-edited negative counter, which `%04d` would render with a minus sign, is not modelled.
- The contracts map lives only in memory, and the buttons are not re-registered at start-up, so contracts do not survive a restart. The model covers one process lifetime.

## Findings

| source | as written | input that shows it | evidently intended | confidence | as-written member | corrected member |
|---|---|---|---|---|---|---|
| bot.py:255-259 | the row's `InfractionID` reads the global `icount` again after the `await` of the embed post | two permitted `/infraction` commands where the second arrives while the first one's post is pending: both rows get id n + 2, and the embed "Infraction #n+1" has no row | each row carries the id its own embed announced, so ids stay unique | medium, not executed | `InfractionTasks.OverlapSharesAnId` | `InfractionTasks.InterleavedIdsStayUnique` |

=== FILE: contracts.dfy ===
/**
  Contract registry: the in-memory `contracts` map from contract id to the
  customer and the order terms, and the Accept / Reject buttons that only
  that customer may use. Ids are allocated as the number of contracts plus
  one and entries are never removed.
 */
module Contracts {
  import opened Wrappers
  import opened Entities

  datatype ContractTerms = ContractTerms(designerId: UserId, designs: int, days: int, subtotal: int, finalPrice: int)

  datatype Decision = Accepted | Rejected

  /**
    One contract. `status` holds the Status lines the customer's presses
    added to the stored embed, oldest first; `buttons` says whether the
    Accept / Reject buttons are still on the posted message.
   */
  datatype Contract = Contract(customerId: UserId, terms: ContractTerms, status: seq<Decision>, buttons: bool)

  type Registry = map<int, Contract>

  /** The ids in use are exactly 1..n for a registry of n contracts. */
  ghost predicate IdsDense(reg: Registry) {
    forall id :: id in reg <==> 1 <= id <= |reg|
  }

  /** `/contract`: records a new contract under id `len(contracts) + 1`. */
  function CreateContract(reg: Registry, customer: UserId, terms: ContractTerms): (r: (Registry, int))
    ensures r.1 == |reg| + 1
    ensures r.1 in r.0 && r.0[r.1] == Contract(customer, terms, [], true)
    ensures reg.Keys <= r.0.Keys
    ensures forall id :: id in reg && id != r.1 ==> r.0[id] == reg[id]
  {
    var id := |reg| + 1;
    (reg[id := Contract(customer, terms, [], true)], id)
  }

  /** With dense ids the new id is unused: creating never overwrites and keeps the ids dense. */
  lemma CreateKeepsIdsDense(reg: Registry, customer: UserId, terms: ContractTerms)
    requires IdsDense(reg)
    ensures var r := CreateContract(reg, customer, terms);
            r.1 !in reg && |r.0| == |reg| + 1 && IdsDense(r.0)
  {
    var r := CreateContract(reg, customer, terms);
    assert r.1 !in reg;
    assert |r.0| == |reg| + 1;
    forall id
      ensures id in r.0 <==> 1 <= id <= |r.0|
    {
      if id != r.1 {
        assert id in r.0 <==> id in reg;
      }
    }
  }

  datatype NewContract = NewContract(customer: UserId, terms: ContractTerms)

  /** A series of `/contract` commands, in order. */
  function CreateAll(reg: Registry, orders: seq<NewContract>): (r: Registry)
    ensures reg.Keys <= r.Keys
    decreases |orders|
  {
    if |orders| == 0 then reg
    else CreateAll(CreateContract(reg, orders[0].customer, orders[0].terms).0, orders[1..])
  }

  /** After n contracts starting from the empty registry the ids are exactly 1..n. */
  lemma {:induction false} CreateAllIdsDense(reg: Registry, orders: seq<NewContract>)
    requires IdsDense(reg)
    ensures |CreateAll(reg, orders)| == |reg| + |orders|
    ensures IdsDense(CreateAll(reg, orders))
    decreases |orders|
  {
    if |orders| > 0 {
      CreateKeepsIdsDense(reg, orders[0].customer, orders[0].terms);
      CreateAllIdsDense(CreateContract(reg, orders[0].customer, orders[0].terms).0, orders[1..]);
    }
  }

  lemma NContractsHaveIdsOneToN(orders: seq<NewContract>)
    ensures forall id :: id in CreateAll(map[], orders) <==> 1 <= id <= |orders|
  {
    CreateAllIdsDense(map[], orders);
  }

  datatype ResponseOutcome =
      /** The id is not in the registry (the lookup raises). */
    | NoSuchContract
      /** The buttons are no longer on the message, so there is nothing to press. */
    | ButtonsRemoved
    | NotCustomer
    | Recorded(decision: Decision)

  /**
    The Accept and Reject buttons: only the contract's customer may press
    them. A press first adds a Status line with the decision to the stored
    embed and then edits the message to take the buttons off; `edited` says
    whether that edit went through. When it fails the Status line stays and
    the buttons remain pressable.
   */
  function Respond(reg: Registry, id: int, actor: UserId, decision: Decision, edited: bool): (r: (Registry, ResponseOutcome))
    ensures id !in reg <==> r.1 == NoSuchContract
    ensures r.1 == ButtonsRemoved <==> id in reg && !reg[id].buttons
    ensures r.1 == NotCustomer <==> id in reg && reg[id].buttons && actor != reg[id].customerId
    ensures !r.1.Recorded? ==> r.0 == reg
    ensures r.1.Recorded? ==>
              && r.1.decision == decision
              && r.0.Keys == reg.Keys
              && reg[id].buttons
              && r.0[id].customerId == reg[id].customerId
              && r.0[id].terms == reg[id].terms
              && |r.0[id].status| == |reg[id].status| + 1
              && r.0[id].status[..|reg[id].status|] == reg[id].status
              && r.0[id].status[|reg[id].status|] == decision
              && r.0[id].buttons == !edited
              && forall other :: other in reg && other != id ==> r.0[other] == reg[other]
  {
    if id !in reg then (reg, NoSuchContract)
    else
      var c := reg[id];
      if !c.buttons then (reg, ButtonsRemoved)
      else if actor != c.customerId then (reg, NotCustomer)
      else (reg[id := c.(status := c.status + [decision], buttons := !edited)], Recorded(decision))
  }

  /** Only the recorded customer can change anything in the registry, and no press removes a contract. */
  lemma OnlyCustomerChangesRegistry(reg: Registry, id: int, actor: UserId, decision: Decision, edited: bool)
    ensures var r := Respond(reg, id, actor, decision, edited);
            && r.0.Keys == reg.Keys
            && (r.0 != reg ==> id in reg && actor == reg[id].customerId)
  {
  }

  /**
    When the message edit goes through, the customer's first decision is
    final: it is the contract's only Status line and no later press by
    anyone changes the registry.
   */
  lemma DecisionIsFinal(reg: Registry, id: int, decision: Decision, actor: UserId, later: Decision, edited: bool)
    requires id in reg && reg[id].buttons && reg[id].status == []
    ensures var first := Respond(reg, id, reg[id].customerId, decision, true);
            && first.1 == Recorded(decision)
            && first.0[id].status == [decision]
            && Respond(first.0, id, actor, later, edited) == (first.0, ButtonsRemoved)
  {
  }

  /**
    When the edit after the first decision fails, the buttons stay and a
    second press by the customer is recorded too: the embed then carries
    both Status lines.
   */
  lemma FailedEditAllowsSecondDecision(reg: Registry, id: int, first: Decision, second: Decision, edited: bool)
    requires id in reg && reg[id].buttons && reg[id].status == []
    ensures var r1 := Respond(reg, id, reg[id].customerId, first, false);
            var r2 := Respond(r1.0, id, reg[id].customerId, second, edited);
            && r1.1 == Recorded(first)
            && r2.1 == Recorded(second)
            && r2.0[id].status == [first, second]
  {
    var r1 := Respond(reg, id, reg[id].customerId, first, false);
    assert r1.0[id].status == [first];
  }

  /** A contract on which every edit went through: no Status line while the buttons show, one after. */
  ghost predicate Settled(c: Contract) {
    if c.buttons then c.status == [] else |c.status| == 1
  }

  /** As long as the message edits succeed, every contract carries at most one decision. */
  lemma SuccessfulEditsKeepOneDecision(reg: Registry, id: int, actor: UserId, decision: Decision)
    requires forall k :: k in reg ==> Settled(reg[k])
    ensures var r := Respond(reg, id, actor, decision, true);
            forall k :: k in r.0 ==> Settled(r.0[k]) && |r.0[k].status| <= 1
  {
  }
}

=== FILE: decimal.dfy ===
/**
  Decimal rendering of non-negative integers, as Python's `str(n)` and
  `f"{n:04d}"` produce it. `Value` reads a digit string back and is the
  partner every rendering is proved against.
 */
module Decimal {

  predicate IsDigit(c: char) {
    '0' <= c <= '9'
  }

  predicate AllDigits(s: string) {
    forall i :: 0 <= i < |s| ==> IsDigit(s[i])
  }

  function DigitChar(d: nat): (c: char)
    requires d < 10
    ensures IsDigit(c)
    ensures c as int - '0' as int == d
  {
    ('0' as int + d) as char
  }

  function DigitValue(c: char): (d: nat)
    requires IsDigit(c)
    ensures d < 10
  {
    c as int - '0' as int
  }

  /** The number a string of decimal digits denotes (most significant digit first). */
  function Value(s: string): nat
    requires AllDigits(s)
  {
    if |s| == 0 then 0 else Value(s[..|s| - 1]) * 10 + DigitValue(s[|s| - 1])
  }

  /** `str(n)`: the canonical decimal rendering, without leading zeros. */
  function ToDecimal(n: nat): (s: string)
    ensures 1 <= |s| && AllDigits(s)
    ensures |s| > 1 ==> s[0] != '0'
    ensures Value(s) == n
    decreases n
  {
    if n < 10 then [DigitChar(n)]
    else
      var s := ToDecimal(n / 10) + [DigitChar(n % 10)];
      assert s[..|s| - 1] == ToDecimal(n / 10);
      s
  }

  /** Zeros in front of a digit string do not change its value. */
  lemma {:induction false} LeadingZerosKeepValue(z: string, d: string)
    requires forall i :: 0 <= i < |z| ==> z[i] == '0'
    requires AllDigits(d)
    ensures AllDigits(z + d)
    ensures Value(z + d) == Value(d)
    decreases |d|
  {
    var s := z + d;
    assert forall i :: 0 <= i < |s| ==> s[i] == (if i < |z| then z[i] else d[i - |z|]);
    if |d| == 0 {
      assert s == z;
      LeadingZerosAreZero(z);
    } else {
      var d' := d[..|d| - 1];
      assert s[..|s| - 1] == z + d';
      assert AllDigits(d');
      LeadingZerosKeepValue(z, d');
    }
  }

  lemma {:induction false} LeadingZerosAreZero(z: string)
    requires forall i :: 0 <= i < |z| ==> z[i] == '0'
    ensures AllDigits(z)
    ensures Value(z) == 0
    decreases |z|
  {
    if |z| > 0 {
      LeadingZerosAreZero(z[..|z| - 1]);
    }
  }

  /** `d` right-aligned in `w` places: '0's prepended until it is `w` characters long. */
  function PadLeft(d: string, w: nat): (r: string)
    ensures |r| == (if |d| >= w then |d| else w)
    decreases w - |d|
  {
    if |d| >= w then d else PadLeft("0" + d, w)
  }

  /** Padding adds only '0's, only in front, and keeps `d` intact at the end. */
  lemma {:induction false} PadLeftShape(d: string, w: nat)
    ensures var r := PadLeft(d, w);
            && r[|r| - |d|..] == d
            && forall i :: 0 <= i < |r| - |d| ==> r[i] == '0'
    decreases w - |d|
  {
    if |d| < w {
      var d' := "0" + d;
      var r := PadLeft(d', w);
      PadLeftShape(d', w);
      assert r[|r| - |d|..] == r[|r| - |d'|..][1..];
      assert r[|r| - |d| - 1] == r[|r| - |d'|..][0];
    }
  }

  /** `f"{n:04d}"`: the digits of `n` right-aligned in four places, filled with '0'. */
  function Format04(n: nat): (r: string)
    ensures AllDigits(r)
    ensures Value(r) == n
    ensures |r| >= 4
    ensures |r| > 4 ==> r[0] != '0'
  {
    var d := ToDecimal(n);
    var r := PadLeft(d, 4);
    PadLeftShape(d, 4);
    LeadingZerosKeepValue(r[..|r| - |d|], d);
    assert r[..|r| - |d|] + d == r;
    r
  }

  /** The first ticket labels: 1 and 2 render as "0001" and "0002". */
  lemma FirstLabels()
    ensures Format04(1) == "0001" && Format04(2) == "0002"
  {
    assert ToDecimal(1) == "1" && ToDecimal(2) == "2";
    assert "0" + "1" == "01" && "0" + "01" == "001" && "0" + "001" == "0001";
    assert "0" + "2" == "02" && "0" + "02" == "002" && "0" + "002" == "0002";
    assert PadLeft("1", 4) == PadLeft("01", 4) == PadLeft("001", 4) == PadLeft("0001", 4) == "0001";
    assert PadLeft("2", 4) == PadLeft("02", 4) == PadLeft("002", 4) == PadLeft("0002", 4) == "0002";
  }

  /** Distinct numbers never share a `%04d` rendering. */
  lemma Format04Injective(a: nat, b: nat)
    ensures Format04(a) == Format04(b) <==> a == b
  {
  }
}

=== FILE: entities.dfy ===
/**
  Chat-platform entities as the core sees them: opaque numeric ids, and a
  member reduced to its id, its mention text and the ids of its roles.
 */
module Entities {
  import Decimal

  type UserId = nat
  type ChannelId = nat
  type RoleId = nat
  type MessageId = nat

  datatype Member = Member(id: UserId, mention: string, roles: set<RoleId>)

  /** `str(id)`: the text under which an id is stored as a JSON object key. */
  function IdKey(id: nat): (k: string)
    ensures Decimal.AllDigits(k) && Decimal.Value(k) == id
  {
    Decimal.ToDecimal(id)
  }

  /** Keys of distinct ids never collide. */
  lemma IdKeyInjective(a: nat, b: nat)
    ensures IdKey(a) == IdKey(b) <==> a == b
  {
  }
}

=== FILE: infraction_tasks.dfy ===
/**
  `/infraction` as the event loop runs it: the command bumps the counter,
  posts its embed ("Infraction #n") and is suspended at that `await`; other
  commands may run before it resumes and appends its row. A desk holds the
  ledger together with the commands suspended at the post, oldest first.

  As written, the resumed command reads the shared counter again for the
  row's id, so two overlapping commands both record the later id. The
  corrected resume records the id its own embed announced; with no overlap
  the two agree with the one-step `Infractions.Issue`.
 */
module InfractionTasks {
  import opened Wrappers
  import opened Entities
  import opened Infractions

  /** A command suspended at the post: the id its embed shows and its request. */
  datatype InFlight = InFlight(id: int, req: IssueRequest)

  datatype Desk = Desk(ledger: Ledger, inFlight: seq<InFlight>)

  /** A command arriving, or the suspended command in `slot` resuming after its post. */
  datatype Event = Arrive(req: IssueRequest) | Resume(slot: nat, posted: Option<MessageId>)

  /**
    The permission check and the counter bump, up to the `await` of the post:
    a permitted command leaves the rows alone and is suspended last, holding
    the new counter as its embed's id.
   */
  function Start(d: Desk, req: IssueRequest, permissionRole: RoleId): (r: Desk)
    ensures permissionRole !in req.issuer.roles ==> r == d
    ensures permissionRole in req.issuer.roles ==>
              && r.ledger.rows == d.ledger.rows
              && r.ledger.icount == d.ledger.icount + 1
              && |r.inFlight| == |d.inFlight| + 1
              && r.inFlight[..|d.inFlight|] == d.inFlight
              && r.inFlight[|d.inFlight|].id == r.ledger.icount
              && r.inFlight[|d.inFlight|].req == req
  {
    if permissionRole !in req.issuer.roles then d
    else Desk(Ledger(d.ledger.rows, d.ledger.icount + 1), d.inFlight + [InFlight(d.ledger.icount + 1, req)])
  }

  /** `r` is `q` with the element at `k` taken out and the others kept in order. */
  ghost predicate Removed(r: seq<InFlight>, q: seq<InFlight>, k: nat) {
    && k < |q|
    && |r| == |q| - 1
    && forall m :: 0 <= m < |r| ==> r[m] == q[if m < k then m else m + 1]
  }

  function Without(q: seq<InFlight>, k: nat): (r: seq<InFlight>)
    requires k < |q|
    ensures Removed(r, q, k)
  {
    q[..k] + q[k + 1..]
  }

  /**
    The rest of the command as written: the row takes the shared counter's
    value at the time of resuming. A failed post (`None`) ends the command
    without a row. An empty slot is no command and changes nothing.
   */
  function ResumeAsWritten(d: Desk, slot: nat, posted: Option<MessageId>): (r: Desk)
    ensures slot >= |d.inFlight| ==> r == d
    ensures slot < |d.inFlight| ==>
              && Removed(r.inFlight, d.inFlight, slot)
              && r.ledger.icount == d.ledger.icount
              && (posted.None? ==> r.ledger.rows == d.ledger.rows)
              && (posted.Some? ==>
                    && |r.ledger.rows| == |d.ledger.rows| + 1
                    && r.ledger.rows[..|d.ledger.rows|] == d.ledger.rows
                    && Records(r.ledger.rows[|d.ledger.rows|], d.inFlight[slot].req, d.ledger.icount, posted.value))
  {
    if slot >= |d.inFlight| then d
    else
      var rest := Without(d.inFlight, slot);
      match posted
      case None => Desk(d.ledger, rest)
      case Some(msg) =>
        Desk(Ledger(d.ledger.rows + [RowFor(d.inFlight[slot].req, d.ledger.icount, msg)], d.ledger.icount), rest)
  }

  /** The corrected rest of the command: the row carries the id its embed announced. */
  function ResumeTask(d: Desk, slot: nat, posted: Option<MessageId>): (r: Desk)
    ensures slot >= |d.inFlight| ==> r == d
    ensures slot < |d.inFlight| ==>
              && Removed(r.inFlight, d.inFlight, slot)
              && r.ledger.icount == d.ledger.icount
              && (posted.None? ==> r.ledger.rows == d.ledger.rows)
              && (posted.Some? ==>
                    && |r.ledger.rows| == |d.ledger.rows| + 1
                    && r.ledger.rows[..|d.ledger.rows|] == d.ledger.rows
                    && Records(r.ledger.rows[|d.ledger.rows|], d.inFlight[slot].req, d.inFlight[slot].id, posted.value))
  {
    if slot >= |d.inFlight| then d
    else
      var f := d.inFlight[slot];
      var rest := Without(d.inFlight, slot);
      match posted
      case None => Desk(d.ledger, rest)
      case Some(msg) => Desk(Ledger(d.ledger.rows + [RowFor(f.req, f.id, msg)], d.ledger.icount), rest)
  }

  /** One event under the code as written. */
  function StepAsWritten(d: Desk, e: Event, permissionRole: RoleId): Desk {
    match e
    case Arrive(req) => Start(d, req, permissionRole)
    case Resume(slot, posted) => ResumeAsWritten(d, slot, posted)
  }

  /** One event with the corrected resume. */
  function Step(d: Desk, e: Event, permissionRole: RoleId): Desk {
    match e
    case Arrive(req) => Start(d, req, permissionRole)
    case Resume(slot, posted) => ResumeTask(d, slot, posted)
  }

  /** A schedule of events under the code as written. */
  function RunAsWritten(d: Desk, events: seq<Event>, permissionRole: RoleId): (r: Desk)
    ensures |r.ledger.rows| >= |d.ledger.rows| && r.ledger.rows[..|d.ledger.rows|] == d.ledger.rows
    decreases |events|
  {
    if |events| == 0 then d
    else
      var step := StepAsWritten(d, events[0], permissionRole);
      var r := RunAsWritten(step, events[1..], permissionRole);
      assert r.ledger.rows[..|d.ledger.rows|] == r.ledger.rows[..|step.ledger.rows|][..|d.ledger.rows|];
      r
  }

  /** A schedule of events with the corrected resume. */
  function Run(d: Desk, events: seq<Event>, permissionRole: RoleId): (r: Desk)
    ensures |r.ledger.rows| >= |d.ledger.rows| && r.ledger.rows[..|d.ledger.rows|] == d.ledger.rows
    decreases |events|
  {
    if |events| == 0 then d
    else
      var step := Step(d, events[0], permissionRole);
      var r := Run(step, events[1..], permissionRole);
      assert r.ledger.rows[..|d.ledger.rows|] == r.ledger.rows[..|step.ledger.rows|][..|d.ledger.rows|];
      r
  }

  /** A schedule of four events, under either version, is its four steps in turn. */
  lemma RunFour(d: Desk, e0: Event, e1: Event, e2: Event, e3: Event, permissionRole: RoleId)
    ensures RunAsWritten(d, [e0, e1, e2, e3], permissionRole) ==
              StepAsWritten(StepAsWritten(StepAsWritten(StepAsWritten(d, e0, permissionRole), e1, permissionRole),
                                          e2, permissionRole), e3, permissionRole)
    ensures Run(d, [e0, e1, e2, e3], permissionRole) ==
              Step(Step(Step(Step(d, e0, permissionRole), e1, permissionRole), e2, permissionRole), e3, permissionRole)
  {
    assert [e0, e1, e2, e3][1..] == [e1, e2, e3];
    assert [e1, e2, e3][1..] == [e2, e3];
    assert [e2, e3][1..] == [e3];
    assert [e3][1..] == [];
    var w1 := StepAsWritten(d, e0, permissionRole);
    var w2 := StepAsWritten(w1, e1, permissionRole);
    var w3 := StepAsWritten(w2, e2, permissionRole);
    var w4 := StepAsWritten(w3, e3, permissionRole);
    assert RunAsWritten(w3, [e3], permissionRole) == RunAsWritten(w4, [], permissionRole) == w4;
    assert RunAsWritten(w2, [e2, e3], permissionRole) == w4;
    assert RunAsWritten(w1, [e1, e2, e3], permissionRole) == w4;
    var c1 := Step(d, e0, permissionRole);
    var c2 := Step(c1, e1, permissionRole);
    var c3 := Step(c2, e2, permissionRole);
    var c4 := Step(c3, e3, permissionRole);
    assert Run(c3, [e3], permissionRole) == Run(c4, [], permissionRole) == c4;
    assert Run(c2, [e2, e3], permissionRole) == c4;
    assert Run(c1, [e1, e2, e3], permissionRole) == c4;
  }

  /** Two permitted arrivals at an idle desk: both are suspended, holding the next two ids. */
  lemma TwoArrivals(l: Ledger, a: IssueRequest, b: IssueRequest, permissionRole: RoleId)
    requires permissionRole in a.issuer.roles && permissionRole in b.issuer.roles
    ensures Start(Start(Desk(l, []), a, permissionRole), b, permissionRole) ==
              Desk(Ledger(l.rows, l.icount + 2), [InFlight(l.icount + 1, a), InFlight(l.icount + 2, b)])
  {
  }

  /**
    Two permitted commands whose posts overlap: the second arrives while the
    first is suspended. As written both rows get the second id, and the
    first embed's id never reaches the ledger.
   */
  lemma OverlapSharesAnId(l: Ledger, a: IssueRequest, b: IssueRequest, permissionRole: RoleId, ma: MessageId, mb: MessageId)
    requires permissionRole in a.issuer.roles && permissionRole in b.issuer.roles
    ensures var r := RunAsWritten(Desk(l, []), [Arrive(a), Arrive(b), Resume(0, Some(ma)), Resume(0, Some(mb))], permissionRole);
            && |r.ledger.rows| == |l.rows| + 2
            && r.ledger.rows[|l.rows|].infractionId == l.icount + 2
            && r.ledger.rows[|l.rows| + 1].infractionId == l.icount + 2
            && r.ledger.rows[|l.rows|].staffId == a.staff.id
            && r.ledger.rows[|l.rows| + 1].staffId == b.staff.id
  {
    RunFour(Desk(l, []), Arrive(a), Arrive(b), Resume(0, Some(ma)), Resume(0, Some(mb)), permissionRole);
    TwoArrivals(l, a, b, permissionRole);
    var d2 := Desk(Ledger(l.rows, l.icount + 2), [InFlight(l.icount + 1, a), InFlight(l.icount + 2, b)]);
    var d3 := Desk(Ledger(l.rows + [RowFor(a, l.icount + 2, ma)], l.icount + 2), [InFlight(l.icount + 2, b)]);
    assert ResumeAsWritten(d2, 0, Some(ma)) == d3;
    var d4 := ResumeAsWritten(d3, 0, Some(mb));
    assert d4.ledger.rows == l.rows + [RowFor(a, l.icount + 2, ma), RowFor(b, l.icount + 2, mb)];
  }

  /** The same schedule with the corrected resume gives each row the id of its own embed. */
  lemma OverlapKeepsOwnIds(l: Ledger, a: IssueRequest, b: IssueRequest, permissionRole: RoleId, ma: MessageId, mb: MessageId)
    requires permissionRole in a.issuer.roles && permissionRole in b.issuer.roles
    ensures var r := Run(Desk(l, []), [Arrive(a), Arrive(b), Resume(0, Some(ma)), Resume(0, Some(mb))], permissionRole);
            && |r.ledger.rows| == |l.rows| + 2
            && r.ledger.rows[|l.rows|].infractionId == l.icount + 1
            && r.ledger.rows[|l.rows| + 1].infractionId == l.icount + 2
  {
    RunFour(Desk(l, []), Arrive(a), Arrive(b), Resume(0, Some(ma)), Resume(0, Some(mb)), permissionRole);
    TwoArrivals(l, a, b, permissionRole);
    var d2 := Desk(Ledger(l.rows, l.icount + 2), [InFlight(l.icount + 1, a), InFlight(l.icount + 2, b)]);
    var d3 := Desk(Ledger(l.rows + [RowFor(a, l.icount + 1, ma)], l.icount + 2), [InFlight(l.icount + 2, b)]);
    assert ResumeTask(d2, 0, Some(ma)) == d3;
    var d4 := ResumeTask(d3, 0, Some(mb));
    assert d4.ledger.rows == l.rows + [RowFor(a, l.icount + 1, ma), RowFor(b, l.icount + 2, mb)];
  }

  /** Without overlap, as written and corrected both do what the one-step `Issue` does. */
  lemma SequentialMatchesIssue(l: Ledger, req: IssueRequest, permissionRole: RoleId, posted: Option<MessageId>)
    ensures RunAsWritten(Desk(l, []), [Arrive(req), Resume(0, posted)], permissionRole)
            == Desk(Issue(l, req, permissionRole, posted).0, [])
    ensures Run(Desk(l, []), [Arrive(req), Resume(0, posted)], permissionRole)
            == Desk(Issue(l, req, permissionRole, posted).0, [])
  {
    var d1 := Start(Desk(l, []), req, permissionRole);
    assert [Arrive(req), Resume(0, posted)][1..] == [Resume(0, posted)];
    assert RunAsWritten(d1, [Resume(0, posted)], permissionRole) == ResumeAsWritten(d1, 0, posted);
    assert Run(d1, [Resume(0, posted)], permissionRole) == ResumeTask(d1, 0, posted);
  }

  /** No id on the desk exceeds the counter, and `base` is a position in the ledger. */
  ghost predicate Bounded(d: Desk, base: nat) {
    && base <= |d.ledger.rows|
    && CounterCovers(d.ledger)
    && forall k :: 0 <= k < |d.inFlight| ==> d.inFlight[k].id <= d.ledger.icount
  }

  /** Rows before `base` have ids below every row after it and every suspended command. */
  ghost predicate AboveLoaded(d: Desk, base: nat)
    requires base <= |d.ledger.rows|
  {
    var rows := d.ledger.rows;
    && (forall i, j :: 0 <= i < base <= j < |rows| ==> rows[i].infractionId < rows[j].infractionId)
    && (forall i, k :: 0 <= i < base && 0 <= k < |d.inFlight| ==> rows[i].infractionId < d.inFlight[k].id)
  }

  /** The rows after `base` and the suspended commands carry pairwise distinct ids. */
  ghost predicate NoSharedIds(d: Desk, base: nat)
    requires base <= |d.ledger.rows|
  {
    var rows := d.ledger.rows;
    var q := d.inFlight;
    && (forall i, j :: base <= i < j < |rows| ==> rows[i].infractionId != rows[j].infractionId)
    && (forall k, m :: 0 <= k < |q| && 0 <= m < |q| && k != m ==> q[k].id != q[m].id)
    && (forall i, k :: base <= i < |rows| && 0 <= k < |q| ==> rows[i].infractionId != q[k].id)
  }

  /**
    The uniqueness invariant of a desk, for the rows appended after position
    `base`: those rows and the suspended commands carry pairwise distinct
    ids, all above the ids of the rows before `base`, and no id exceeds the
    counter.
   */
  ghost predicate DeskUnique(d: Desk, base: nat) {
    Bounded(d, base) && AboveLoaded(d, base) && NoSharedIds(d, base)
  }

  /** A new command takes the bumped counter, above every id on the desk. */
  lemma StartKeepsUnique(d: Desk, base: nat, req: IssueRequest, permissionRole: RoleId)
    requires DeskUnique(d, base)
    ensures DeskUnique(Start(d, req, permissionRole), base)
  {
    var r := Start(d, req, permissionRole);
    if permissionRole in req.issuer.roles {
      var n := |d.inFlight|;
      assert forall k :: 0 <= k < n ==> r.inFlight[k] == d.inFlight[k];
      assert r.inFlight[n].id == r.ledger.icount;
      assert Bounded(r, base);
      assert AboveLoaded(r, base);
      assert NoSharedIds(r, base);
    }
  }

  lemma ResumeKeepsBounded(d: Desk, base: nat, slot: nat, posted: Option<MessageId>)
    requires DeskUnique(d, base)
    requires slot < |d.inFlight|
    ensures Bounded(ResumeTask(d, slot, posted), base)
  {
    var r := ResumeTask(d, slot, posted);
    forall k | 0 <= k < |r.inFlight|
      ensures r.inFlight[k].id <= r.ledger.icount
    {
      assert r.inFlight[k] == d.inFlight[if k < slot then k else k + 1];
    }
  }

  lemma ResumeKeepsAboveLoaded(d: Desk, base: nat, slot: nat, posted: Option<MessageId>)
    requires DeskUnique(d, base)
    requires slot < |d.inFlight|
    ensures Bounded(ResumeTask(d, slot, posted), base)
    ensures AboveLoaded(ResumeTask(d, slot, posted), base)
  {
    ResumeKeepsBounded(d, base, slot, posted);
    var r := ResumeTask(d, slot, posted);
    var rows := d.ledger.rows;
    forall i, k | 0 <= i < base && 0 <= k < |r.inFlight|
      ensures r.ledger.rows[i].infractionId < r.inFlight[k].id
    {
      assert r.inFlight[k] == d.inFlight[if k < slot then k else k + 1];
      assert r.ledger.rows[i] == rows[i];
    }
    forall i, j | 0 <= i < base <= j < |r.ledger.rows|
      ensures r.ledger.rows[i].infractionId < r.ledger.rows[j].infractionId
    {
      assert r.ledger.rows[i] == rows[i];
    }
  }

  lemma ResumeKeepsNoSharedIds(d: Desk, base: nat, slot: nat, posted: Option<MessageId>)
    requires DeskUnique(d, base)
    requires slot < |d.inFlight|
    ensures NoSharedIds(ResumeTask(d, slot, posted), base)
  {
    var r := ResumeTask(d, slot, posted);
    var q := d.inFlight;
    var rest := r.inFlight;
    var rows := d.ledger.rows;
    forall k, m | 0 <= k < |rest| && 0 <= m < |rest| && k != m
      ensures rest[k].id != rest[m].id
    {
      assert rest[k] == q[if k < slot then k else k + 1];
      assert rest[m] == q[if m < slot then m else m + 1];
    }
    forall i, k | base <= i < |r.ledger.rows| && 0 <= k < |rest|
      ensures r.ledger.rows[i].infractionId != rest[k].id
    {
      assert rest[k] == q[if k < slot then k else k + 1];
      if i < |rows| {
        assert r.ledger.rows[i] == rows[i];
      }
    }
    forall i, j | base <= i < j < |r.ledger.rows|
      ensures r.ledger.rows[i].infractionId != r.ledger.rows[j].infractionId
    {
      assert r.ledger.rows[i] == rows[i];
    }
  }

  /** Resuming moves a suspended id into the rows, or drops it: no id is duplicated. */
  lemma ResumeKeepsUnique(d: Desk, base: nat, slot: nat, posted: Option<MessageId>)
    requires DeskUnique(d, base)
    ensures DeskUnique(ResumeTask(d, slot, posted), base)
  {
    if slot < |d.inFlight| {
      ResumeKeepsAboveLoaded(d, base, slot, posted);
      ResumeKeepsNoSharedIds(d, base, slot, posted);
    }
  }

  /**
    Under the corrected resume, any schedule of arrivals, successful and
    failed posts keeps the appended ids pairwise distinct and above every
    id that was there before.
   */
  lemma {:induction false} RunKeepsUnique(d: Desk, base: nat, events: seq<Event>, permissionRole: RoleId)
    requires DeskUnique(d, base)
    ensures DeskUnique(Run(d, events, permissionRole), base)
    decreases |events|
  {
    if |events| > 0 {
      var step := Step(d, events[0], permissionRole);
      match events[0] {
        case Arrive(req) => StartKeepsUnique(d, base, req, permissionRole);
        case Resume(slot, posted) => ResumeKeepsUnique(d, base, slot, posted);
      }
      RunKeepsUnique(step, base, events[1..], permissionRole);
    }
  }

  /**
    From start-up, whatever the interleaving, the corrected command never
    gives two rows of a session the same id, nor an id already on file.
   */
  lemma InterleavedIdsStayUnique(file: Option<seq<InfractionRow>>, events: seq<Event>, permissionRole: RoleId)
    ensures var base := |InitLedger(file).rows|;
            var rows := Run(Desk(InitLedger(file), []), events, permissionRole).ledger.rows;
            && (forall i, j :: base <= i < j < |rows| ==> rows[i].infractionId != rows[j].infractionId)
            && (forall i, j :: 0 <= i < base <= j < |rows| ==> rows[i].infractionId < rows[j].infractionId)
  {
    RunKeepsUnique(Desk(InitLedger(file), []), |InitLedger(file).rows|, events, permissionRole);
  }
}

=== FILE: infractions.dfy ===
/**
  Infraction ledger: the rows of `infractions.csv` together with the running
  counter `icount` the bot keeps in memory. The ledger is read once when the
  process starts; each permitted `/infraction` bumps the counter, appends one
  row carrying the new id and rewrites the file.
 */
module Infractions {
  import opened Wrappers
  import opened Entities

  /** The closed set of infraction kinds offered by the command. */
  datatype InfractionType =
    | VerbalWarning | WrittenWarning | Warning | FireWarning | ActivityNotice
    | Suspension | Strike | Demotion | TerminationNotice | Termination | Blacklist

  /** The enum's value: the text stored in the `InfractionType` column. */
  function Display(t: InfractionType): string {
    match t
    case VerbalWarning => "Verbal Warning"
    case WrittenWarning => "Written Warning"
    case Warning => "Warning"
    case FireWarning => "Fire Warning"
    case ActivityNotice => "Activity Notice"
    case Suspension => "Suspension"
    case Strike => "Strike"
    case Demotion => "Demotion"
    case TerminationNotice => "Termination Notice"
    case Termination => "Termination"
    case Blacklist => "Blacklist"
  }

  /** Enum lookup by value: the kind whose display text is `s`, if any. */
  function FromDisplay(s: string): (r: Option<InfractionType>)
    ensures r.Some? ==> Display(r.value) == s
    ensures r.None? ==> forall t: InfractionType :: Display(t) != s
  {
    if s == "Verbal Warning" then Some(VerbalWarning)
    else if s == "Written Warning" then Some(WrittenWarning)
    else if s == "Warning" then Some(Warning)
    else if s == "Fire Warning" then Some(FireWarning)
    else if s == "Activity Notice" then Some(ActivityNotice)
    else if s == "Suspension" then Some(Suspension)
    else if s == "Strike" then Some(Strike)
    else if s == "Demotion" then Some(Demotion)
    else if s == "Termination Notice" then Some(TerminationNotice)
    else if s == "Termination" then Some(Termination)
    else if s == "Blacklist" then Some(Blacklist)
    else None
  }

  /** Every kind reads back from its display text, so no two kinds share one. */
  lemma DisplayRoundTrip(t: InfractionType)
    ensures FromDisplay(Display(t)) == Some(t)
  {
  }

  lemma DisplayInjective(a: InfractionType, b: InfractionType)
    ensures Display(a) == Display(b) <==> a == b
  {
    DisplayRoundTrip(a);
    DisplayRoundTrip(b);
  }

  /**
    One ledger row. Rows read from an existing file may leave the message
    id and the two notes columns empty; rows the bot appends never fill in
    the notes.
   */
  datatype InfractionRow = InfractionRow(
    infractionId: int,
    staffId: UserId,
    staffMention: string,
    infractionType: string,
    reason: string,
    issuedBy: string,
    issuedById: UserId,
    messageId: Option<string>,
    staffNotes: Option<string>,
    userNotes: Option<string>)

  datatype Ledger = Ledger(rows: seq<InfractionRow>, icount: int)

  /** The largest id among a non-empty set of rows (pandas' `max()` of the column). */
  function MaxId(rows: seq<InfractionRow>): (m: int)
    requires |rows| > 0
    ensures forall i :: 0 <= i < |rows| ==> rows[i].infractionId <= m
    ensures exists i :: 0 <= i < |rows| && rows[i].infractionId == m
  {
    if |rows| == 1 then rows[0].infractionId
    else
      var m := MaxId(rows[1..]);
      assert forall i :: 1 <= i < |rows| ==> rows[i] == rows[1..][i - 1];
      if rows[0].infractionId >= m then rows[0].infractionId else m
  }

  /** Every id in the ledger is at most the counter: the next id handed out is new. */
  ghost predicate CounterCovers(l: Ledger) {
    forall i :: 0 <= i < |l.rows| ==> l.rows[i].infractionId <= l.icount
  }

  /**
    Start-up: the ledger file's rows (`None` when the file does not exist),
    and a counter starting at the largest id present, or 0 when there are
    no rows.
   */
  function InitLedger(file: Option<seq<InfractionRow>>): (l: Ledger)
    ensures l.rows == file.GetOr([])
    ensures CounterCovers(l)
    ensures |l.rows| == 0 ==> l.icount == 0
    ensures |l.rows| > 0 ==> exists i :: 0 <= i < |l.rows| && l.rows[i].infractionId == l.icount
  {
    match file
    case None => Ledger([], 0)
    case Some(rows) => if |rows| == 0 then Ledger(rows, 0) else Ledger(rows, MaxId(rows))
  }

  /** `save_infractions`: the file now holds exactly the in-memory rows. */
  function SaveLedger(l: Ledger): (file: Option<seq<InfractionRow>>)
    ensures InitLedger(file).rows == l.rows
  {
    Some(l.rows)
  }

  datatype IssueRequest = IssueRequest(issuer: Member, staff: Member, kind: InfractionType, reason: string)

  datatype IssueOutcome =
    | MissingPermissions
    | Issued(id: int)
      /** The counter moved but posting to the infraction channel failed, so no row was written. */
    | NotPosted(id: int)

  /**
    Column by column, `row` is what `/infraction` records for `req` under id
    `id` once its embed was posted as message `msg`: the staff member, the
    kind's text, the reason, the issuer, the message id as text, and no notes.
   */
  ghost predicate Records(row: InfractionRow, req: IssueRequest, id: int, msg: MessageId) {
    && row.infractionId == id
    && row.staffId == req.staff.id
    && row.staffMention == req.staff.mention
    && row.infractionType == Display(req.kind)
    && row.reason == req.reason
    && row.issuedBy == req.issuer.mention
    && row.issuedById == req.issuer.id
    && row.messageId == Some(IdKey(msg))
    && row.staffNotes.None? && row.userNotes.None?
  }

  /** The row `/infraction` appends for a request that got id `id` and was posted as message `msg`. */
  function RowFor(req: IssueRequest, id: int, msg: MessageId): (row: InfractionRow)
    ensures Records(row, req, id, msg)
  {
    InfractionRow(id, req.staff.id, req.staff.mention, Display(req.kind), req.reason,
                  req.issuer.mention, req.issuer.id, Some(IdKey(msg)), None, None)
  }

  /**
    `/infraction`: refused unless the issuer holds `permissionRole`;
    otherwise the counter is bumped first and, once the embed is posted as
    message `posted`, one row carrying the new id is appended. `posted` is
    `None` when posting fails, which aborts the command after the bump.
   */
  function Issue(l: Ledger, req: IssueRequest, permissionRole: RoleId, posted: Option<MessageId>): (r: (Ledger, IssueOutcome))
    ensures permissionRole !in req.issuer.roles <==> r.1 == MissingPermissions
    ensures r.1 == MissingPermissions ==> r.0 == l
    ensures r.1 != MissingPermissions ==> r.0.icount == l.icount + 1 && r.1.id == r.0.icount
    ensures r.1.NotPosted? ==> posted.None? && r.0.rows == l.rows
    ensures r.1.Issued? ==>
              && posted.Some?
              && |r.0.rows| == |l.rows| + 1
              && r.0.rows[..|l.rows|] == l.rows
              && Records(r.0.rows[|l.rows|], req, r.1.id, posted.value)
  {
    if permissionRole !in req.issuer.roles then (l, MissingPermissions)
    else
      var id := l.icount + 1;
      match posted
      case None => (Ledger(l.rows, id), NotPosted(id))
      case Some(msg) => (Ledger(l.rows + [RowFor(req, id, msg)], id), Issued(id))
  }

  /** Issuing keeps the counter at or above every id, so the id it hands out exceeds all earlier ones. */
  lemma IssuePreservesCover(l: Ledger, req: IssueRequest, permissionRole: RoleId, posted: Option<MessageId>)
    requires CounterCovers(l)
    ensures CounterCovers(Issue(l, req, permissionRole, posted).0)
    ensures var r := Issue(l, req, permissionRole, posted);
            r.1 != MissingPermissions ==>
              forall i :: 0 <= i < |l.rows| ==> l.rows[i].infractionId < r.1.id
  {
  }

  /** A command as the session sees it: the request and how posting its embed went. */
  datatype Command = Command(req: IssueRequest, posted: Option<MessageId>)

  /**
    A session in which each command finishes before the next one starts:
    no command arrives while another's post is still pending. Overlapping
    commands are the subject of `InfractionTasks`.
   */
  function IssueAll(l: Ledger, cmds: seq<Command>, permissionRole: RoleId): (r: Ledger)
    ensures r.icount >= l.icount
    ensures |r.rows| >= |l.rows| && r.rows[..|l.rows|] == l.rows
    decreases |cmds|
  {
    if |cmds| == 0 then l
    else
      var step := Issue(l, cmds[0].req, permissionRole, cmds[0].posted).0;
      var r := IssueAll(step, cmds[1..], permissionRole);
      assert r.rows[..|l.rows|] == r.rows[..|step.rows|][..|l.rows|];
      r
  }

  /**
    The rows appended after position `base` have ids that strictly increase,
    and each exceeds the id of every row before `base`.
   */
  ghost predicate FreshAfter(l: Ledger, base: nat) {
    && base <= |l.rows|
    && CounterCovers(l)
    && (forall i, j :: 0 <= i < j < |l.rows| && base <= j ==>
          l.rows[i].infractionId < l.rows[j].infractionId)
  }

  lemma IssuePreservesFresh(l: Ledger, base: nat, cmd: Command, permissionRole: RoleId)
    requires FreshAfter(l, base)
    ensures FreshAfter(Issue(l, cmd.req, permissionRole, cmd.posted).0, base)
  {
    var r := Issue(l, cmd.req, permissionRole, cmd.posted);
    if r.1.Issued? {
      forall i, j | 0 <= i < j < |r.0.rows| && base <= j
        ensures r.0.rows[i].infractionId < r.0.rows[j].infractionId
      {
        if j < |l.rows| {
          assert r.0.rows[i] == l.rows[i] && r.0.rows[j] == l.rows[j];
        } else {
          assert r.0.rows[i] == l.rows[i];
        }
      }
    }
  }

  /**
    In a one-at-a-time session ids are unique and increasing: every row
    appended carries an id above all rows present before it, whatever mix
    of refused, posted and failed commands the session holds.
   */
  lemma {:induction false} SessionIdsIncrease(l: Ledger, base: nat, cmds: seq<Command>, permissionRole: RoleId)
    requires FreshAfter(l, base)
    ensures FreshAfter(IssueAll(l, cmds, permissionRole), base)
    decreases |cmds|
  {
    if |cmds| > 0 {
      var step := Issue(l, cmds[0].req, permissionRole, cmds[0].posted).0;
      IssuePreservesFresh(l, base, cmds[0], permissionRole);
      SessionIdsIncrease(step, base, cmds[1..], permissionRole);
    }
  }

  /** A freshly loaded ledger satisfies the session invariant from its last row on. */
  lemma InitIsFresh(file: Option<seq<InfractionRow>>)
    ensures FreshAfter(InitLedger(file), |InitLedger(file).rows|)
  {
  }

  /** Every command in `cmds` is permitted and posted. */
  ghost predicate AllGoThrough(cmds: seq<Command>, permissionRole: RoleId) {
    forall k :: 0 <= k < |cmds| ==> permissionRole in cmds[k].req.issuer.roles && cmds[k].posted.Some?
  }

  /** Row i carries id i + 1 and the counter equals the number of rows. */
  ghost predicate Dense(l: Ledger) {
    && l.icount == |l.rows|
    && forall i :: 0 <= i < |l.rows| ==> l.rows[i].infractionId == i + 1
  }

  /**
    N permitted, posted infractions run one at a time against a dense ledger
    (ids 1..n) receive the next N ids in order, each once.
   */
  lemma {:induction false} DenseLedgerContinuesIds(l: Ledger, cmds: seq<Command>, permissionRole: RoleId)
    requires Dense(l)
    requires AllGoThrough(cmds, permissionRole)
    ensures |IssueAll(l, cmds, permissionRole).rows| == |l.rows| + |cmds|
    ensures Dense(IssueAll(l, cmds, permissionRole))
    decreases |cmds|
  {
    if |cmds| > 0 {
      var step := Issue(l, cmds[0].req, permissionRole, cmds[0].posted).0;
      assert permissionRole in cmds[0].req.issuer.roles && cmds[0].posted.Some?;
      assert Dense(step);
      assert AllGoThrough(cmds[1..], permissionRole) by {
        forall k | 0 <= k < |cmds[1..]|
          ensures permissionRole in cmds[1..][k].req.issuer.roles && cmds[1..][k].posted.Some?
        {
          assert cmds[1..][k] == cmds[k + 1];
        }
      }
      DenseLedgerContinuesIds(step, cmds[1..], permissionRole);
    }
  }

  lemma EmptyLedgerIsDense()
    ensures Dense(InitLedger(None))
    ensures Dense(InitLedger(Some([])))
  {
  }

  /**
    Restart: reloading the saved file recovers the counter, as long as the
    last command of the session wrote its row. When that command's post
    failed, the reloaded counter is one lower and its id is handed out again.
   */
  lemma ReloadRecoversCounter(l: Ledger)
    requires CounterCovers(l)
    requires |l.rows| > 0 && l.rows[|l.rows| - 1].infractionId == l.icount
    ensures InitLedger(SaveLedger(l)) == l
  {
    var m := MaxId(l.rows);
    assert m >= l.icount;
  }

  /**
    From start-up, a one-at-a-time session appends rows whose ids strictly
    increase and exceed every id on file.
   */
  lemma StartUpSessionIdsIncrease(file: Option<seq<InfractionRow>>, cmds: seq<Command>, permissionRole: RoleId)
    ensures var base := |InitLedger(file).rows|;
            var rows := IssueAll(InitLedger(file), cmds, permissionRole).rows;
            && base <= |rows|
            && forall i, j :: 0 <= i < j < |rows| && base <= j ==> rows[i].infractionId < rows[j].infractionId
  {
    InitIsFresh(file);
    SessionIdsIncrease(InitLedger(file), |InitLedger(file).rows|, cmds, permissionRole);
  }

  /** With no ledger file, N permitted, posted commands run one at a time get ids 1..N in order. */
  lemma FreshStartIdsAreOneToN(cmds: seq<Command>, permissionRole: RoleId)
    requires AllGoThrough(cmds, permissionRole)
    ensures var rows := IssueAll(InitLedger(None), cmds, permissionRole).rows;
            && |rows| == |cmds|
            && forall i :: 0 <= i < |rows| ==> rows[i].infractionId == i + 1
  {
    EmptyLedgerIsDense();
    DenseLedgerContinuesIds(InitLedger(None), cmds, permissionRole);
  }
}

=== FILE: promotions.dfy ===
/**
  Promotion ladder and log. The ladder is the ordered list of rank role ids,
  most junior first; `/promotion issue` moves a member from the first rank
  of the ladder they hold to the next one and overwrites the member's single
  record in the `promotions.json` document (`None` while the file does not
  exist).
 */
module Promotions {
  import opened Wrappers
  import opened Entities

  /** `ROLE_IDS`: Junior Designer up to Owner. */
  const RoleIds: seq<RoleId> := [
    1469157176248369355, 1469156917191639253, 1469156779949821984, 1462264007464321047,
    1469156457206517810, 1462264007493812248, 1462264007493812249, 1462264007493812250,
    1469155995443007499, 1462264007506399434, 1462264007506399435, 1469155809509511271,
    1462264007493812254, 1462264007506399439, 1462264007506399440
  ]

  datatype PromotionRecord = PromotionRecord(oldRole: RoleId, newRole: RoleId, issuedBy: UserId, reason: string, timestamp: string)

  /** The log: member key (`str(member.id)`) to that member's latest promotion. */
  type PromotionLog = map<string, PromotionRecord>

  /** `load_promotions`: the persisted log, or an empty one when the file is missing. */
  function LoadPromotions(disk: Option<PromotionLog>): (log: PromotionLog)
    ensures disk.None? ==> log == map[]
    ensures disk.Some? ==> log == disk.value
  {
    disk.GetOr(map[])
  }

  /** `save_promotions`: the log replaces whatever was persisted. */
  function SavePromotions(log: PromotionLog): (disk: Option<PromotionLog>)
    ensures LoadPromotions(disk) == log
  {
    Some(log)
  }

  /** No rank appears twice on the ladder. */
  ghost predicate DistinctRanks(ladder: seq<RoleId>) {
    forall i, j :: 0 <= i < j < |ladder| ==> ladder[i] != ladder[j]
  }

  lemma RoleIdsDistinct()
    ensures DistinctRanks(RoleIds)
  {
  }

  /** The index of the first rank at or after `from` the member holds, scanning upwards. */
  function FirstHeldFrom(ladder: seq<RoleId>, roles: set<RoleId>, from: nat): (r: Option<nat>)
    requires from <= |ladder|
    ensures r.Some? ==> from <= r.value < |ladder| && ladder[r.value] in roles
    ensures r.Some? ==> forall j :: from <= j < r.value ==> ladder[j] !in roles
    ensures r.None? ==> forall j :: from <= j < |ladder| ==> ladder[j] !in roles
    decreases |ladder| - from
  {
    if from == |ladder| then None
    else if ladder[from] in roles then Some(from)
    else FirstHeldFrom(ladder, roles, from + 1)
  }

  /** `next((i for i, r in enumerate(ROLE_IDS) if r in member roles), -1)`, with `None` for -1. */
  function FirstHeld(ladder: seq<RoleId>, roles: set<RoleId>): (r: Option<nat>)
    ensures r.Some? ==> r.value < |ladder| && ladder[r.value] in roles
    ensures r.Some? ==> forall j :: 0 <= j < r.value ==> ladder[j] !in roles
    ensures r.None? ==> forall j :: 0 <= j < |ladder| ==> ladder[j] !in roles
  {
    FirstHeldFrom(ladder, roles, 0)
  }

  /** The first held rank is the unique held index with nothing held below it. */
  lemma FirstHeldIs(ladder: seq<RoleId>, roles: set<RoleId>, k: nat)
    requires k < |ladder| && ladder[k] in roles
    requires forall j :: 0 <= j < k ==> ladder[j] !in roles
    ensures FirstHeld(ladder, roles) == Some(k)
  {
  }

  /**
    How the two awaited role calls went: both applied, removing the old rank
    raised, or adding the new rank raised after the old one was removed.
    `AddFailed` also stands for the next rank's role missing from the server:
    the lookup then returns nothing and adding it raises.
   */
  datatype RoleCalls = BothApplied | RemoveFailed | AddFailed

  /** `Aborted`: a role call raised, so the command ended before writing the log. */
  datatype PromotionOutcome = CannotPromote | Aborted | Promoted(oldRole: RoleId, newRole: RoleId)

  /** The persisted log after the command, the member's roles after it, and what was reported. */
  datatype PromotionResult = PromotionResult(disk: Option<PromotionLog>, roles: set<RoleId>, outcome: PromotionOutcome)

  /**
    `/promotion issue`: refused when the member holds no rank or their first
    rank is the top one; otherwise that rank is removed, the next one added,
    and, only when both role calls went through, the member's record is
    overwritten with the two ranks, the issuer, the reason and the time.
   */
  function PromotionIssue(disk: Option<PromotionLog>, ladder: seq<RoleId>, member: Member, issuer: UserId,
                          reason: string, timestamp: string, calls: RoleCalls): (r: PromotionResult)
    ensures r.outcome.CannotPromote? <==>
              (FirstHeld(ladder, member.roles).None? || FirstHeld(ladder, member.roles).value + 1 == |ladder|)
    ensures r.outcome.CannotPromote? ==> r.disk == disk && r.roles == member.roles
    ensures r.outcome.Aborted? <==> !r.outcome.CannotPromote? && !calls.BothApplied?
    ensures r.outcome.Aborted? ==>
              && r.disk == disk
              && (calls.RemoveFailed? ==> r.roles == member.roles)
              && (calls.AddFailed? ==> r.roles == member.roles - {ladder[FirstHeld(ladder, member.roles).value]})
    ensures r.outcome.Promoted? ==>
              var i := FirstHeld(ladder, member.roles).value;
              && calls.BothApplied?
              && i + 1 < |ladder|
              && r.outcome.oldRole == ladder[i] && r.outcome.newRole == ladder[i + 1]
              && r.roles == member.roles - {ladder[i]} + {ladder[i + 1]}
              && r.disk.Some?
              && r.disk.value.Keys == LoadPromotions(disk).Keys + {IdKey(member.id)}
              && r.disk.value[IdKey(member.id)] == PromotionRecord(ladder[i], ladder[i + 1], issuer, reason, timestamp)
              && forall k :: k in LoadPromotions(disk) && k != IdKey(member.id) ==>
                   r.disk.value[k] == LoadPromotions(disk)[k]
  {
    var promotions := LoadPromotions(disk);
    match FirstHeld(ladder, member.roles)
    case None => PromotionResult(disk, member.roles, CannotPromote)
    case Some(i) =>
      if i + 1 >= |ladder| then PromotionResult(disk, member.roles, CannotPromote)
      else
        var oldRole := ladder[i];
        var newRole := ladder[i + 1];
        match calls
        case RemoveFailed => PromotionResult(disk, member.roles, Aborted)
        case AddFailed => PromotionResult(disk, member.roles - {oldRole}, Aborted)
        case BothApplied =>
          var roles := member.roles - {oldRole} + {newRole};
          var record := PromotionRecord(oldRole, newRole, issuer, reason, timestamp);
          PromotionResult(Some(promotions[IdKey(member.id) := record]), roles, Promoted(oldRole, newRole))
  }

  /**
    When adding the new rank fails, the member is left without the rank they
    were promoted from and holds nothing below it either, and no record is
    written.
   */
  lemma FailedAddDropsRank(disk: Option<PromotionLog>, ladder: seq<RoleId>, member: Member, issuer: UserId,
                           reason: string, timestamp: string)
    requires FirstHeld(ladder, member.roles).Some? && FirstHeld(ladder, member.roles).value + 1 < |ladder|
    ensures var r := PromotionIssue(disk, ladder, member, issuer, reason, timestamp, AddFailed);
            var i := FirstHeld(ladder, member.roles).value;
            && r.outcome == Aborted
            && r.disk == disk
            && (forall j :: 0 <= j <= i ==> ladder[j] !in r.roles)
            && (FirstHeld(ladder, r.roles).None? || FirstHeld(ladder, r.roles).value > i)
  {
  }

  /** The member's current record, if any. */
  function RecordOf(log: PromotionLog, member: UserId): Option<PromotionRecord> {
    if IdKey(member) in log then Some(log[IdKey(member)]) else None
  }

  /**
    On a ladder without repeated ranks a promotion moves the member exactly
    one step up: afterwards the first rank they hold is the next one.
   */
  lemma PromotionAdvancesOneRank(disk: Option<PromotionLog>, ladder: seq<RoleId>, member: Member, issuer: UserId,
                                 reason: string, timestamp: string, calls: RoleCalls)
    requires DistinctRanks(ladder)
    ensures var r := PromotionIssue(disk, ladder, member, issuer, reason, timestamp, calls);
            r.outcome.Promoted? ==>
              FirstHeld(ladder, r.roles) == Some(FirstHeld(ladder, member.roles).value + 1)
  {
    var r := PromotionIssue(disk, ladder, member, issuer, reason, timestamp, calls);
    if r.outcome.Promoted? {
      var i := FirstHeld(ladder, member.roles).value;
      forall j | 0 <= j < i + 1
        ensures ladder[j] !in r.roles
      {
        assert ladder[j] != ladder[i + 1];
      }
      FirstHeldIs(ladder, r.roles, i + 1);
    }
  }

  /** The top rank cannot be promoted past; nothing is written. */
  lemma TopRankIsRefused(disk: Option<PromotionLog>, member: Member, issuer: UserId, reason: string, timestamp: string,
                         calls: RoleCalls)
    requires RoleIds[|RoleIds| - 1] in member.roles
    requires forall j :: 0 <= j < |RoleIds| - 1 ==> RoleIds[j] !in member.roles
    ensures PromotionIssue(disk, RoleIds, member, issuer, reason, timestamp, calls) ==
              PromotionResult(disk, member.roles, CannotPromote)
  {
    FirstHeldIs(RoleIds, member.roles, |RoleIds| - 1);
  }

  /**
    Two promotions of the same member in a row leave one record, the second:
    the log keeps no history.
   */
  lemma SecondPromotionOverwrites(disk: Option<PromotionLog>, ladder: seq<RoleId>, member: Member,
                                  issuer1: UserId, reason1: string, time1: string,
                                  issuer2: UserId, reason2: string, time2: string, calls1: RoleCalls, calls2: RoleCalls)
    ensures var first := PromotionIssue(disk, ladder, member, issuer1, reason1, time1, calls1);
            var second := PromotionIssue(first.disk, ladder, member.(roles := first.roles), issuer2, reason2, time2, calls2);
            second.outcome.Promoted? ==>
              RecordOf(LoadPromotions(second.disk), member.id) ==
                Some(PromotionRecord(second.outcome.oldRole, second.outcome.newRole, issuer2, reason2, time2))
  {
  }
}

=== FILE: tax.dfy ===
/**
  Tier choice of the `/tax` calculator: the designer-tax rate as a whole
  percentage, chosen by the number of designs in the order.
 */
module Tax {
  import opened Wrappers

  datatype Tier = FivePercent | TenPercent | TwentyFivePercent

  function Percent(t: Tier): nat {
    match t
    case FivePercent => 5
    case TenPercent => 10
    case TwentyFivePercent => 25
  }

  /** `None` is the "Invalid designs" reply for fewer than one design. */
  function TaxTier(designs: int): (r: Option<Tier>)
    ensures r.None? <==> designs < 1
    ensures r.Some? && designs < 10 ==> Percent(r.value) == 5
    ensures r.Some? && 10 <= designs < 25 ==> Percent(r.value) == 10
    ensures r.Some? && designs >= 25 ==> Percent(r.value) == 25
  {
    if designs < 1 then None
    else if designs < 10 then Some(FivePercent)
    else if designs < 25 then Some(TenPercent)
    else Some(TwentyFivePercent)
  }

  /** More designs never lower the rate. */
  lemma TierMonotone(a: int, b: int)
    requires 1 <= a <= b
    ensures Percent(TaxTier(a).value) <= Percent(TaxTier(b).value)
  {
  }

  /** The rate changes exactly at 10 and at 25 designs. */
  lemma TierChangesOnlyAtThresholds(d: int)
    requires d >= 1
    ensures TaxTier(d + 1).value != TaxTier(d).value <==> d + 1 == 10 || d + 1 == 25
  {
  }
}

=== FILE: tickets.dfy ===
/**
  Ticket store: the `data.json` document holding the ticket counter and the
  claim map (channel key -> claimant id). Every command reads the document,
  changes it and writes it back, so the model threads the persisted
  document (`None` while the file does not exist) through each operation.
 */
module Tickets {
  import opened Wrappers
  import opened Entities
  import Decimal

  datatype Store = Store(ticketCounter: nat, claims: map<string, UserId>)

  /** What `load_data` creates when the file is missing. */
  const Fresh: Store := Store(0, map[])

  /** `load_data`: the persisted document, or the fresh default when there is none. */
  function LoadData(disk: Option<Store>): (s: Store)
    ensures disk.None? ==> s.ticketCounter == 0 && s.claims == map[]
    ensures disk.Some? ==> s == disk.value
  {
    disk.GetOr(Fresh)
  }

  /** `save_data`: the document replaces whatever was persisted. */
  function SaveData(s: Store): (disk: Option<Store>)
    ensures LoadData(disk) == s
  {
    Some(s)
  }

  // ---------------------------------------------------------------------------
  // Ticket numbering
  // ---------------------------------------------------------------------------

  /** `next_ticket`: bumps the persisted counter and returns it rendered as `%04d`. */
  function NextTicket(disk: Option<Store>): (r: (Option<Store>, string))
    ensures r.0.Some?
    ensures r.0.value.ticketCounter == LoadData(disk).ticketCounter + 1
    ensures r.0.value.claims == LoadData(disk).claims
    ensures r.1 == Decimal.Format04(r.0.value.ticketCounter)
    ensures Decimal.AllDigits(r.1) && |r.1| >= 4 && Decimal.Value(r.1) == r.0.value.ticketCounter
    ensures |r.1| > 4 ==> r.1[0] != '0'
  {
    var s := LoadData(disk);
    var s' := s.(ticketCounter := s.ticketCounter + 1);
    (SaveData(s'), Decimal.Format04(s'.ticketCounter))
  }

  /** `f` applied to the `k` counter values c + 1, ..., c + k, in order. */
  function Series<T>(c: nat, k: nat, f: nat -> T): (r: seq<T>)
    ensures |r| == k
    decreases k
  {
    if k == 0 then [] else [f(c + 1)] + Series(c + 1, k - 1, f)
  }

  /** Element i of a series is `f` of the counter value c + i + 1. */
  lemma {:induction false} SeriesAt<T>(c: nat, k: nat, f: nat -> T, i: nat)
    requires i < k
    ensures Series(c, k, f)[i] == f(c + i + 1)
    decreases i
  {
    if i > 0 {
      SeriesAt(c + 1, k - 1, f, i - 1);
      assert Series(c, k, f)[i] == Series(c + 1, k - 1, f)[i - 1];
    }
  }

  /** A series of a + b values is the first a followed by the b that continue from c + a. */
  lemma {:induction false} SeriesSplit<T>(c: nat, a: nat, b: nat, f: nat -> T)
    ensures Series(c, a, f) + Series(c + a, b, f) == Series(c, a + b, f)
    decreases a
  {
    if a == 0 {
      assert Series(c, a, f) + Series(c + a, b, f) == Series(c + a, b, f);
    } else {
      SeriesSplit(c + 1, a - 1, b, f);
      calc {
        Series(c, a, f) + Series(c + a, b, f);
        ([f(c + 1)] + Series(c + 1, a - 1, f)) + Series(c + 1 + (a - 1), b, f);
        { AppendAssociates([f(c + 1)], Series(c + 1, a - 1, f), Series(c + 1 + (a - 1), b, f)); }
        [f(c + 1)] + (Series(c + 1, a - 1, f) + Series(c + 1 + (a - 1), b, f));
        [f(c + 1)] + Series(c + 1, a - 1 + b, f);
        Series(c, a + b, f);
      }
    }
  }

  lemma AppendAssociates<T>(x: seq<T>, y: seq<T>, z: seq<T>)
    ensures (x + y) + z == x + (y + z)
  {
  }

  /** `k` consecutive ticket creations, with the labels they hand out in order. */
  function NextTickets(disk: Option<Store>, k: nat): (r: (Option<Store>, seq<string>))
    ensures r.1 == Series(LoadData(disk).ticketCounter, k, Decimal.Format04)
    ensures LoadData(r.0).ticketCounter == LoadData(disk).ticketCounter + k
    ensures LoadData(r.0).claims == LoadData(disk).claims
    decreases k
  {
    if k == 0 then (disk, [])
    else
      var step := NextTicket(disk);
      var rest := NextTickets(step.0, k - 1);
      assert LoadData(step.0).ticketCounter == LoadData(disk).ticketCounter + 1;
      (rest.0, [step.1] + rest.1)
  }

  /** Labels handed out over any run are strictly increasing as numbers, hence never repeat. */
  lemma TicketLabelsIncrease(disk: Option<Store>, k: nat, i: nat, j: nat)
    requires i < j < k
    ensures Decimal.AllDigits(NextTickets(disk, k).1[i]) && Decimal.AllDigits(NextTickets(disk, k).1[j])
    ensures Decimal.Value(NextTickets(disk, k).1[i]) == LoadData(disk).ticketCounter + i + 1
    ensures Decimal.Value(NextTickets(disk, k).1[i]) < Decimal.Value(NextTickets(disk, k).1[j])
    ensures NextTickets(disk, k).1[i] != NextTickets(disk, k).1[j]
  {
    SeriesAt(LoadData(disk).ticketCounter, k, Decimal.Format04, i);
    SeriesAt(LoadData(disk).ticketCounter, k, Decimal.Format04, j);
  }

  /**
    Stopping the process after `a` tickets and starting again from the
    persisted document hands out exactly the labels an uninterrupted run of
    `a + b` tickets would: no gap and no repeat across a restart.
   */
  lemma RestartContinuesNumbering(disk: Option<Store>, a: nat, b: nat)
    ensures NextTickets(disk, a).1 + NextTickets(NextTickets(disk, a).0, b).1 == NextTickets(disk, a + b).1
    ensures LoadData(NextTickets(NextTickets(disk, a).0, b).0) == LoadData(NextTickets(disk, a + b).0)
  {
    RestartLabels(disk, a, b);
    RestartStore(disk, a, b);
  }

  lemma RestartLabels(disk: Option<Store>, a: nat, b: nat)
    ensures NextTickets(disk, a).1 + NextTickets(NextTickets(disk, a).0, b).1 == NextTickets(disk, a + b).1
  {
    var mid := NextTickets(disk, a).0;
    JoinRuns(NextTickets(disk, a).1, NextTickets(mid, b).1, NextTickets(disk, a + b).1,
             LoadData(disk).ticketCounter, LoadData(mid).ticketCounter, a, b, Decimal.Format04);
  }

  /** Two consecutive runs of a series (the second starting at `m == c + a`), joined, are the run covering both. */
  lemma JoinRuns<T>(x: seq<T>, y: seq<T>, z: seq<T>, c: nat, m: nat, a: nat, b: nat, f: nat -> T)
    requires m == c + a
    requires x == Series(c, a, f) && y == Series(m, b, f) && z == Series(c, a + b, f)
    ensures x + y == z
  {
    SeriesSplit(c, a, b, f);
  }

  lemma RestartStore(disk: Option<Store>, a: nat, b: nat)
    ensures LoadData(NextTickets(NextTickets(disk, a).0, b).0) == LoadData(NextTickets(disk, a + b).0)
  {
  }

  /** On a store that does not exist yet the first two tickets are "0001" and "0002". */
  lemma FirstTicketsFromFreshStore()
    ensures NextTickets(None, 2).1 == ["0001", "0002"]
  {
    Decimal.FirstLabels();
    assert Series(0, 2, Decimal.Format04) == [Decimal.Format04(1), Decimal.Format04(2)];
  }

  // ---------------------------------------------------------------------------
  // Claim toggle
  // ---------------------------------------------------------------------------

  datatype ClaimOutcome = Claimed | Unclaimed

  /** Who holds the claim on a channel, if anyone. */
  function ClaimOf(s: Store, channel: ChannelId): Option<UserId> {
    var key := IdKey(channel);
    if key in s.claims then Some(s.claims[key]) else None
  }

  /**
    `claimticket`: a claimed channel is released whoever asks; an unclaimed
    one is claimed by the caller. Nothing else in the document changes.
   */
  function ClaimTicket(disk: Option<Store>, channel: ChannelId, caller: UserId): (r: (Option<Store>, ClaimOutcome))
    ensures r.0.Some?
    ensures r.0.value.ticketCounter == LoadData(disk).ticketCounter
    ensures r.1 == Unclaimed <==> IdKey(channel) in LoadData(disk).claims
    ensures r.1 == Claimed <==> IdKey(channel) in r.0.value.claims
    ensures r.1 == Claimed ==> r.0.value.claims[IdKey(channel)] == caller
    ensures forall k :: k != IdKey(channel) ==>
              (k in r.0.value.claims <==> k in LoadData(disk).claims)
    ensures forall k :: k != IdKey(channel) && k in LoadData(disk).claims ==>
              r.0.value.claims[k] == LoadData(disk).claims[k]
  {
    var s := LoadData(disk);
    var key := IdKey(channel);
    if key in s.claims then
      (SaveData(s.(claims := s.claims - {key})), Unclaimed)
    else
      (SaveData(s.(claims := s.claims[key := caller])), Claimed)
  }

  /** At the level of channel ids: the toggled channel flips, every other channel keeps its claimant. */
  lemma ClaimTicketIsLocal(disk: Option<Store>, channel: ChannelId, caller: UserId, other: ChannelId)
    ensures var after := ClaimTicket(disk, channel, caller).0.value;
            && (ClaimOf(LoadData(disk), channel).Some? ==> ClaimOf(after, channel) == None)
            && (ClaimOf(LoadData(disk), channel).None? ==> ClaimOf(after, channel) == Some(caller))
            && (other != channel ==> ClaimOf(after, other) == ClaimOf(LoadData(disk), other))
  {
    IdKeyInjective(channel, other);
  }

  /** Claiming an unclaimed channel and toggling it again, by anyone, restores the store exactly. */
  lemma ToggleTwiceRestores(disk: Option<Store>, channel: ChannelId, first: UserId, second: UserId)
    requires ClaimOf(LoadData(disk), channel).None?
    ensures var once := ClaimTicket(disk, channel, first);
            once.1 == Claimed &&
            ClaimTicket(once.0, channel, second) == (Some(LoadData(disk)), Unclaimed)
  {
    var s := LoadData(disk);
    var key := IdKey(channel);
    assert s.claims[key := first] - {key} == s.claims;
  }
}

=== FILE: wrappers.dfy ===
/** The optional-value datatype shared by every component of the model. */
module Wrappers {

  /** A value that may be absent: a missing file, a missing key, an unset column. */
  datatype Option<+T> = None | Some(value: T) {

    /** Returns the value held, or `default` when there is none. */
    function GetOr(default: T): T {
      match this
      case Some(v) => v
      case None => default
    }
  }
}
